=== FILE: README.md ===
# modu: a Dafny model of the interactive update list

`modu` is a terminal program that lists a Go project's out-of-date dependency
modules. The user moves a cursor through the list and presses enter to update
the module under it. This project models the program's core (`main.go`) as
pure Dafny and proves properties of it:

- **The message reducer.** `Reducer.Step` maps a state and a message to the
  next state and at most one command. It models `(*model).Update`. The
  messages are a task error, a first listing, the listing after an update, a
  key press, a spinner tick and a terminal resize. The commands are nothing,
  quit, update a module, and next spinner tick.
- **Cursor and viewport reconciliation.** `Navigation.FixCursor` and
  `Navigation.FixViewport` model `fixCursor` and `fixViewport`.
- **The filter-and-sort step of `load`.** `Listing.Load` keeps the records
  that are not the main module and have an update. It then orders them:
  direct modules before indirect ones, ascending path within each group.
- **What rendering shows.** `View.HeaderOf` models the header choice and
  `View.Content` models the one-line-per-module body.
- **The two background tasks.** `Commands.LoadDone` and
  `Commands.UpdateDone` give the message each task delivers.
- **A corrected reducer.** `Checked.StepChecked` fixes the index faults
  listed under Findings. `Checked.Run` folds it over a message sequence,
  rendering after each message.

Files: `govalues.dfy` (nil-able values and error returns), `lexicographic.dfy` (Go's string
order), `listing.dfy`, `scrolling.dfy`, `navigation.dfy`, `reducer.dfy`,
`view.dfy`, `commands.dfy`, `checked.dfy`.

Go compares strings by their UTF-8 bytes. For valid UTF-8 that order is the
same as comparing code points. The paths are decoded by `encoding/json`,
which replaces invalid UTF-8 with U+FFFD, so they are always valid UTF-8,
and `Lexicographic.Less` compares `char`s one by one.

The viewport widget comes from an external library that is not part of this
model. `Scrolling.LineUp` and `Scrolling.LineDown` are given an assumed
contract:

- move the offset by `n` lines;
- stop at 0 going up;
- never go past `MaxOffset` going down, and land exactly on it when a
  longer scroll is cut short; `MaxOffset` is the line count minus the
  height, or 0 if that is negative;
- do nothing when already at that end.

The line count (`Viewport.lines`) is set when the content is rendered
(`View.Render`, modelling `SetContent` at main.go:140): one line more than
there are modules, since each module's line ends in a newline. The reducer
never changes it; `Checked.Run` renders after every message, as the
runtime does.

Three points of the code's behaviour the model keeps as they are:

- `enter` has no emptiness guard (see Findings).
- `fixCursor` only handles a cursor that has stepped one past either end:
  past the end goes to 0, before 0 goes to the last index. For the ±1 moves
  the reducer makes, this equals `% len`.
- `fixViewport(false)` asks the viewport to scroll by the distance the
  cursor lies outside the window, and the library may cut that scroll short
  (`Navigation.FollowShowsCursor` gives the condition under which it does
  not).

## Model

| member | source | states |
|---|---|---|
| Lexicographic.Less | main.go:283 | Go's string `<` on paths: a proper prefix comes first; when the first characters differ they decide; never true of equal strings (a difference at any later index: Lexicographic.LessFirstDifference; order laws in the rows below) |
| Lexicographic.LessFirstDifference | main.go:283 | when two paths agree up to index k and differ there, the order is decided by the characters at k |
| Lexicographic.LessTransitive | main.go:283 | the path order used by the sort is transitive |
| Lexicographic.LessTotal | main.go:283 | any two different paths are ordered one way or the other |
| Lexicographic.NotLessMeans | main.go:283 | "b is not before a" holds exactly when a equals b or a is before b |
| Listing.Updatable | main.go:272-274 | each record occurs in the filtered list exactly as often as in the stream if it is non-main with an update, and never otherwise |
| Listing.Before | main.go:277-284 | the sort comparator: a direct module always comes before an indirect one and never after it; inside a group the path order decides (characterised by Listing.NotBeforeMeans, Listing.NotBeforeTransitive and Listing.OrderedMeans) |
| Listing.NotBeforeMeans | main.go:277-284 | the comparator lets b follow a exactly when a is indirect only if b is, and paths do not decrease within a group |
| Listing.OrderedMeans | main.go:277-284 | a list is ordered by the comparator if and only if all direct modules precede all indirect ones and paths ascend within each group |
| Listing.NotBeforeTransitive | main.go:277-284 | the comparator's "may follow" relation is transitive, so the comparator is a valid sort order |
| Listing.Insert | main.go:277-284 | inserting into an ordered list gives an ordered list with exactly one more occurrence of the inserted module |
| Listing.SortModules | main.go:277-284 | the sorted list is ordered by the comparator and is a permutation of its input |
| Listing.Load | main.go:272-284 | the loaded list is ordered, every module in it is non-main with an update, and it is a permutation of the filtered records |
| Listing.LoadGroupsAndSorts | main.go:277-284 | the loaded list has every direct module before every indirect one and ascending paths within each group |
| Scrolling.LineUp | main.go:100-103 | assumed library scroll: up by n, stopping at 0, no other field changes |
| Scrolling.LineDown | main.go:105-108 | assumed library scroll: down by at most n, exactly n when that stays within the maximum offset, no other field changes |
| Navigation.FixCursor | main.go:174-180 | on a non-empty list the result is a valid index; a valid cursor is left alone; past the end wraps to 0 and before 0 wraps to the last index |
| Navigation.FixCursorIdempotent | main.go:174-180 | fixing an already fixed cursor changes nothing |
| Navigation.FixCursorCycles | main.go:88-99 | one step down or up from a valid index is addition or subtraction of 1 modulo the list length, so the last index goes to 0 and 0 goes to the last index |
| Navigation.FixViewport | main.go:182-200 | cursor mode keeps the window and moves a cursor above it to the offset and one below it to the last window line, so to the nearest visible line when the window has one (for a window of no lines, to the line above the offset); follow mode keeps the cursor and requests a scroll by exactly the distance the cursor lies outside the window |
| Navigation.FollowShowsCursor | main.go:194-200 | when the cursor is within the content and the window has at least one line, following leaves the cursor visible and moves the window minimally |
| Reducer.ActionOf | main.go:80-109 | the key table: ctrl+c/q quit, enter updates, down/j and up/k move, pgup/u and pgdown/d scroll, each action exactly for its key names, any other key ignored |
| Reducer.MoveCursor | main.go:88-99 | moving changes only cursor and offset, wraps the cursor onto a non-empty list, and leaves it visible when the window has at least one line and the content a line per module |
| Reducer.ScrollTo | main.go:100-109 | adopts the scrolled window and keeps a visible cursor where it is, and moves any other cursor to the window's nearest visible line when the window has at least one line |
| Reducer.KeyStep | main.go:79-110 | a key never changes the list, the error or readiness; gated keys do nothing while busy; Quit exactly for the quit keys; an update command exactly for an accepted enter, naming the module under the cursor and setting the busy flag; otherwise the busy flag stays |
| Reducer.Resize | main.go:115-126 | a resize marks the program ready and sets the size less two lines; the offset is 0 for a new viewport and kept otherwise; only cursor and viewport change; a later resize leaves the cursor visible when the new window has at least one line (h ≥ 3) |
| Reducer.Step | main.go:69-130 | only listings replace the list; Quit exactly for task errors and the quit keys; only errors change the error; an update starts only from idle, on a listed module; only the listing after an update clears the busy flag (per-message lemmas below) |
| Reducer.BusyGate | main.go:83-109 | while an update runs, enter, down/j, up/k, pgup/u and pgdown/d leave the state unchanged and issue no command |
| Reducer.UnboundKeyIgnored | main.go:79-110 | a key outside the binding table changes nothing and issues no command |
| Reducer.EnterStartsUpdate | main.go:83-87 | enter when idle sets the busy flag and requests an update of the module under the cursor, a member of the list |
| Reducer.QuitKeys | main.go:81-82 | q and ctrl+c quit and leave the state unchanged, busy or not |
| Reducer.ResultMessages | main.go:71-78 | an error records the error and quits; a listing replaces the list; the listing after an update also clears the busy flag; none moves the cursor or the viewport |
| Reducer.TickOnlyAnimates | main.go:111-114 | a spinner tick leaves the modelled state unchanged and asks for the next tick |
| Reducer.NavigationCycles | main.go:88-99 | down/up when idle move the cursor cyclically by one (the last index goes to 0, 0 to the last index); only cursor and offset change |
| Reducer.NavigationShowsCursor | main.go:88-99 | after down/up the cursor is on the list, and visible when the content has a line per module and the window at least one line |
| Reducer.ScrollMovesCursor | main.go:100-109 | pgup/pgdown when idle scroll one line as the viewport allows, keep a cursor that is still visible, and move any other cursor to the nearest visible line when the window has at least one line |
| Reducer.FirstResize | main.go:116-121 | the first resize creates a viewport at offset 0 with height two less than the terminal and marks the program ready |
| Reducer.LaterResize | main.go:122-126 | later resizes keep the offset and set the new size; a cursor still in the window stays, and the cursor is visible when the new window has at least one line (h ≥ 3) |
| Reducer.StepKeepsListable | main.go:74-86 | when listings come from the loader, every listed module stays non-main with an update, and every update command names such a module |
| View.HeaderOf | main.go:134-139 | loading before the first resize or the first listing; up to date exactly for an empty listing; otherwise a prompt with position cursor+1 of the list length |
| View.Render | main.go:140 | when the body is drawn the viewport gets one line per module plus the trailing empty one and keeps an offset that still points into the content; otherwise nothing changes; only the viewport's offset and line count can change |
| View.PromptPositionInBounds | main.go:139 | with the cursor on the list the prompt shows a position between 1 and the total |
| View.Content | main.go:148-172 | one line per module in list order, carrying its path, versions and indirect flag; only the cursor's line is marked, with the spinner while busy |
| View.OneMarkedLine | main.go:151-158 | some line is marked if and only if the cursor is on the list |
| Commands.LoadDone | main.go:214-222 | the load task yields an error message exactly when listing or decoding failed, otherwise the loaded list, all of whose modules are listable |
| Commands.UpdateDone | main.go:225-239 | the update task yields an error when go get or the reload failed, the go get error taking precedence, otherwise the reloaded list |
| Commands.GetArgument | main.go:227 | the go get argument is the update's path, an '@', then the update's version |
| Commands.GetArgumentRoundTrip | main.go:227 | for a version without '@', splitting the argument at its last '@' gives back the update's path and version |
| Commands.UpdateCommandHasArgument | main.go:225-227 | every update command issued in a state built from loaded listings names a module with an update, so the go get argument is defined |
| Checked.StepChecked | main.go:69-130 | corrected reducer: an update command always names a module of the list, and after any non-empty listing the cursor is on the list |
| Checked.CheckedAgreesWithStep | main.go:69-130 | the corrected reducer equals the source's wherever the source does not fault, except for wrapping the cursor after a listing |
| Checked.Run | main.go:69-146 | the corrected reducer's session over a message sequence (the source's own Step is not folded; Checked.CheckedAgreesWithStep shows the two agree on navigation keys, so the navigation lemmas carry over to Step), each message followed by a render; when every listing comes from the loader, every listed module keeps an update |
| Checked.RunAppend | main.go:69-146 | running two message sequences one after the other equals running their concatenation |
| Checked.NavigationKeepsCursorVisible | main.go:88-99 | any run of navigation keys from an idle state with the cursor on the list and visible, a window of at least one line and a content line per module ends in such a state over the same list |
| Checked.SessionBecomesNavigable | main.go:115-121 | from the start, a resize with room for a list line and a non-empty listing (rendered) reach a state where that navigation invariant holds |
| Checked.SessionNavigationKeepsCursorVisible | main.go:88-99 | from the start, after such a resize and listing, every run of navigation keys leaves the cursor on the list and visible |
| Checked.EnterOnEmptyListFaults | main.go:83-86 | enter would index an empty list in the initial "Loading..." state, after the first resize, and after a resize and an empty listing; the corrected step ignores it in each |
| Checked.ScrollBeforeResizePullsCursorUp | main.go:105-108 | pgdown before the first resize leaves the zero-height window in place and moves the cursor to -1, the line above its offset |
| Checked.ScrollBeforeResizeMovesCursorOffList | main.go:100-109 | pgdown before the first resize pulls the cursor to -1 in the zero-height initial window; after a two-module listing the header reads 0/2 and enter would fault; the corrected step ignores it |
| Checked.ReloadLeavesCursorPastEnd | main.go:76-78 | from the start, updating the second of two modules and receiving one back leaves the cursor past the end: the header reads 2/1 and the next enter faults |
| Checked.ResizeMovesCursorOffList | main.go:122-125 | from the start, a one-module listing and a resize to two rows pull the cursor to -1: the header reads 0/1 and the next enter faults; the corrected step ignores it |

## Left out

- Running `go list` and `go get` (main.go:227-228, 251-256) is left out. Both are external processes, so their success or failure is a parameter of `Commands.LoadDone` and `Commands.UpdateDone`.
- Decoding the JSON record stream (main.go:258-270) is left out. The model starts from the decoded records, or from the decode error.
- `Reducer.Initial` models the zero-valued state `newModel` returns (main.go:52-60); only its spinner and colour-profile set-up are left out.
- The Bubble Tea runtime, `main`, `Init` and the alternate screen (main.go:21-36, 62-67) are process plumbing and are left out. Events arriving while a task runs are modelled only as a sequence of messages (`Checked.Run`).
- The spinner's animation frame and colours (main.go:111-114, 152-157) are cosmetic. A tick is modelled as changing no modelled state.
- Text formatting and colouring in `View`/`content` is left out. Only the header choice and the fields of each body line are modelled.
- The viewport library's internals are left out: how `SetContent` splits lines or adjusts the offset, and how the window is drawn. `Scrolling.LineUp`, `Scrolling.LineDown` and `View.Render` state an assumed contract instead.
- Listing.SortModules: the source calls an unstable sort. Only the order and the permutation are stated. The insertion sort fixes one order for equal keys, and nothing relies on that order.
- Reducer.Step: its requires excludes the unguarded index when enter is accepted with the cursor off the list. There the source faults at run time (see Findings).

## Findings

| source | as written | input that shows it | evidently intended | confidence | as-written member | corrected member |
|---|---|---|---|---|---|---|
| main.go:83-86 | enter when idle indexes `modules[cursor]` with no check that the list is non-empty | press enter while the header reads "Loading..." (list still nil); or start, resize to 80x24, empty listing (header "All modules are up-to-date"), press enter | enter does nothing unless there is a module under the cursor | high, not executed | Checked.EnterOnEmptyListFaults | Checked.StepChecked |
| main.go:122-125 | a later resize pulls the cursor into the new window even when it has no lines, moving it to the line above the offset | list [a], resize to 80x2 (window height 0): cursor -1, header "[0/1]", next enter indexes `modules[-1]` | enter does nothing unless there is a module under the cursor | high, not executed | Checked.ResizeMovesCursorOffList | Checked.StepChecked |
| main.go:76-78 | the listing after an update replaces the list but keeps the cursor | list [a, b], cursor on b, enter, reload returns [a]: cursor 1 on a list of 1, header "[2/1]", next enter indexes past the end | the cursor is wrapped back onto the new list | high, not executed | Checked.ReloadLeavesCursorPastEnd | Checked.StepChecked |

=== FILE: checked.dfy ===
/** The reducer with its index faults corrected, the session run over a
    message sequence with a render after every message, and the reachable
    inputs that show the faults.

    As written, accepting "enter" indexes the list at the cursor without a
    guard. Reachable states put the cursor off the list there: the list
    still nil while "Loading..." shows; an empty list ("All modules are
    up-to-date"); a reload that shortens the list below the cursor, since a
    listing leaves the cursor where it was; a resize to a window with no
    room for a list line, since pulling the cursor into an empty window
    moves it above the window's offset; and pgup/pgdown before the first
    resize, which pull the cursor into the zero-height initial window.
    `StepChecked` ignores "enter" when the cursor is off the list and wraps
    the cursor after every new listing; everywhere else it is `Step`. */
module Checked {
  import opened GoValues
  import opened Listing
  import opened Scrolling
  import opened Navigation
  import opened Reducer
  import opened View

  /** Total: defined on every state and message. An update command only
      ever names a module of the current list, and after any non-empty
      listing the cursor is on the list. */
  function StepChecked(s: State, msg: Msg): (r: (State, Cmd))
    ensures r.1.UpdateModule? ==> r.1.target in s.List()
    ensures (msg.Modules? || msg.Updated?) && |msg.list| > 0 ==> r.0.CursorInRange()
    ensures AllListable(s.List()) && ListableMsg(msg) ==> AllListable(r.0.List())
  {
    match msg
    case Modules(list) =>
      var t := Step(s, msg).0;
      (t.(cursor := FixCursor(t.cursor, |list|)), Nothing)
    case Updated(list) =>
      var t := Step(s, msg).0;
      (t.(cursor := FixCursor(t.cursor, |list|)), Nothing)
    case Key(k) =>
      if ActionOf(k) == Enter && !s.updating && !s.CursorInRange() then (s, Nothing)
      else Step(s, msg)
    case _ => Step(s, msg)
  }

  /** The corrected step is `Step` wherever the source does not fault, up to
      the wrap of the cursor after a new listing. */
  lemma CheckedAgreesWithStep(s: State, msg: Msg)
    requires CanStep(s, msg)
    ensures !(msg.Modules? || msg.Updated?) ==> StepChecked(s, msg) == Step(s, msg)
    ensures (msg.Modules? || msg.Updated?) ==>
      && StepChecked(s, msg).1 == Step(s, msg).1
      && StepChecked(s, msg).0 == Step(s, msg).0.(cursor := StepChecked(s, msg).0.cursor)
      && (0 <= s.cursor < |msg.list| ==> StepChecked(s, msg) == Step(s, msg))
  {
  }

  /** The session after a sequence of messages, each handled by the
      corrected reducer and followed by a render. When every listing comes
      from the loader, every listed module keeps an update to show. */
  function Run(s: State, msgs: seq<Msg>): (r: State)
    ensures AllListable(s.List()) && (forall i :: 0 <= i < |msgs| ==> ListableMsg(msgs[i])) ==>
      AllListable(r.List())
    decreases |msgs|
  {
    if |msgs| == 0 then s
    else
      assert forall i :: 0 <= i < |msgs| - 1 ==> msgs[1..][i] == msgs[i + 1];
      Run(Render(StepChecked(s, msgs[0]).0), msgs[1..])
  }

  /** Running two sequences one after the other is running their
      concatenation. */
  lemma {:induction false} RunAppend(s: State, a: seq<Msg>, b: seq<Msg>)
    ensures Run(s, a + b) == Run(Run(s, a), b)
    decreases |a|
  {
    if |a| > 0 {
      assert (a + b)[0] == a[0];
      assert (a + b)[1..] == a[1..] + b;
      RunAppend(Render(StepChecked(s, a[0]).0), a[1..], b);
    } else {
      assert a + b == b;
    }
  }

  predicate IsNavigation(msg: Msg) {
    msg.Key? && (ActionOf(msg.key) == Down || ActionOf(msg.key) == Up)
  }

  /** The conditions under which navigation keeps the cursor visible: idle,
      cursor on the list and in the window, a window of at least one line,
      and content with a line per module. */
  predicate Navigable(s: State) {
    && !s.updating && s.CursorInRange() && s.CursorVisible()
    && s.viewport.height >= 1 && |s.List()| <= s.viewport.lines
  }

  /** The viewport invariant: any run of navigation keys from a navigable
      state ends in a navigable state over the same list. */
  lemma {:induction false} NavigationKeepsCursorVisible(s: State, msgs: seq<Msg>)
    requires forall i :: 0 <= i < |msgs| ==> IsNavigation(msgs[i])
    requires Navigable(s)
    ensures Navigable(Run(s, msgs))
    ensures Run(s, msgs).List() == s.List()
    ensures Run(s, msgs).viewport.height == s.viewport.height
    decreases |msgs|
  {
    if |msgs| > 0 {
      NavigationCycles(s, msgs[0].key);
      NavigationShowsCursor(s, msgs[0].key);
      var stepped := StepChecked(s, msgs[0]).0;
      assert stepped == Step(s, msgs[0]).0;
      var next := Render(stepped);
      assert next.viewport.yOffset == stepped.viewport.yOffset;
      assert forall i :: 0 <= i < |msgs| - 1 ==> msgs[1..][i] == msgs[i + 1];
      NavigationKeepsCursorVisible(next, msgs[1..]);
    }
  }

  /** A session that is resized to a window with room for at least one list
      line and then receives a non-empty listing is navigable. */
  lemma SessionBecomesNavigable(w: int, h: int, list: seq<Module>)
    requires h >= 3 && |list| > 0
    ensures Navigable(Run(Initial, [WindowSize(w, h), Modules(list)]))
    ensures Run(Initial, [WindowSize(w, h), Modules(list)]).List() == list
  {
    var s1 := Render(StepChecked(Initial, WindowSize(w, h)).0);
    assert s1 == Initial.(ready := true, viewport := Viewport(w, h - 2, 0, 0));
    var s2 := Render(StepChecked(s1, Modules(list)).0);
    assert s2.cursor == 0 && s2.viewport.lines == |list| + 1;
    assert [WindowSize(w, h), Modules(list)][1..] == [Modules(list)];
    assert Run(Initial, [WindowSize(w, h), Modules(list)]) == Run(s1, [Modules(list)]);
    assert Run(s1, [Modules(list)]) == Run(s2, []);
  }

  /** From the start, after a resize and a non-empty listing, every run of
      navigation keys leaves the cursor on the list and visible. */
  lemma SessionNavigationKeepsCursorVisible(w: int, h: int, list: seq<Module>, keys: seq<Msg>)
    requires h >= 3 && |list| > 0
    requires forall i :: 0 <= i < |keys| ==> IsNavigation(keys[i])
    ensures var t := Run(Initial, [WindowSize(w, h), Modules(list)] + keys);
      t.CursorInRange() && t.CursorVisible() && t.List() == list
  {
    SessionBecomesNavigable(w, h, list);
    RunAppend(Initial, [WindowSize(w, h), Modules(list)], keys);
    NavigationKeepsCursorVisible(Run(Initial, [WindowSize(w, h), Modules(list)]), keys);
  }

  function Sample(path: string): Module {
    Module(path, "v1.0.0", Some(Release(path, "v1.1.0")), false, false)
  }

  /** Finding: while loading, or with nothing to update, the list is empty
      and "enter" still reaches the unguarded index. The states are the
      initial one, the one after the first resize, and the one after an
      empty listing; the corrected step ignores the key in each. */
  lemma EnterOnEmptyListFaults()
    ensures HeaderOf(Initial) == Loading && !CanStep(Initial, Key("enter"))
    ensures StepChecked(Initial, Key("enter")) == (Initial, Nothing)
    ensures var s1 := Step(Initial, WindowSize(80, 24)).0;
      HeaderOf(s1) == Loading && !CanStep(s1, Key("enter"))
    ensures var s1 := Step(Initial, WindowSize(80, 24)).0;
      var s2 := Step(s1, Modules([])).0;
      && HeaderOf(s2) == UpToDate
      && !CanStep(s2, Key("enter"))
      && StepChecked(s2, Key("enter")) == (s2, Nothing)
  {
  }

  /** Finding: updating the last of two modules and getting back a list of
      one leaves the cursor past the end; the header reads [2/1] and the
      next "enter" reaches the unguarded index. The whole trace starts from
      the initial state. The corrected step wraps the cursor back to 0. */
  lemma ReloadLeavesCursorPastEnd()
    ensures var a := Sample("a");
      var b := Sample("b");
      var s1 := Step(Initial, WindowSize(80, 24)).0;
      var s2 := Step(s1, Modules([a, b])).0;
      var s3 := Step(s2, Key("down")).0;
      && CanStep(s3, Key("enter"))
      && Step(s3, Key("enter")).1 == UpdateModule(b)
      && var s4 := Step(s3, Key("enter")).0;
      && var s5 := Step(s4, Updated([a])).0;
      && HeaderOf(s5) == Prompt(2, 1)
      && !CanStep(s5, Key("enter"))
      && StepChecked(s4, Updated([a])).0.cursor == 0
  {
    var a := Sample("a");
    var b := Sample("b");
    var s1 := Step(Initial, WindowSize(80, 24)).0;
    assert s1.viewport == Viewport(80, 22, 0, 0);
    var s2 := Step(s1, Modules([a, b])).0;
    assert s2.List() == [a, b] && s2.cursor == 0;
    var s3 := Step(s2, Key("down")).0;
    assert FixCursor(1, 2) == 1;
    assert s3.cursor == 1 && s3.List() == [a, b];
  }

  /** pgdown before the first resize pulls the cursor into the
      zero-height initial window, to the line above its offset. */
  lemma ScrollBeforeResizePullsCursorUp()
    ensures Step(Initial, Key("pgdown")) == (Initial.(cursor := -1), Nothing)
  {
    assert ActionOf("pgdown") == PageDown;
    assert LineDown(Initial.viewport, 1) == Initial.viewport;
  }

  /** Finding: after that early scroll and a two-module listing the header
      reads [0/2] and "enter" reaches the unguarded index. The corrected
      step ignores that "enter". */
  lemma ScrollBeforeResizeMovesCursorOffList()
    ensures var s1 := Step(Initial, Key("pgdown")).0;
      var s2 := Step(Step(s1, WindowSize(80, 24)).0, Modules([Sample("a"), Sample("b")])).0;
      && s1.cursor == -1
      && HeaderOf(s2) == Prompt(0, 2)
      && !CanStep(s2, Key("enter"))
      && StepChecked(s2, Key("enter")) == (s2, Nothing)
  {
    ScrollBeforeResizePullsCursorUp();
    var s1 := Initial.(cursor := -1);
    var r := Step(s1, WindowSize(80, 24)).0;
    assert r == s1.(ready := true, viewport := Viewport(80, 22, 0, 0));
    var s2 := Step(r, Modules([Sample("a"), Sample("b")])).0;
    assert s2 == r.(modules := Some([Sample("a"), Sample("b")]));
  }

  /** Finding: after a one-module listing, resizing the terminal to two rows
      leaves a window of height 0, and pulling the cursor into it moves the
      cursor to -1; the header reads [0/1] and the next "enter" reaches the
      unguarded index. The corrected step ignores that "enter". */
  lemma ResizeMovesCursorOffList()
    ensures var s1 := Step(Initial, WindowSize(80, 24)).0;
      var s2 := Step(s1, Modules([Sample("a")])).0;
      var s3 := Step(s2, WindowSize(80, 2)).0;
      && s3.cursor == -1
      && HeaderOf(s3) == Prompt(0, 1)
      && !CanStep(s3, Key("enter"))
      && StepChecked(s3, Key("enter")) == (s3, Nothing)
  {
    var s1 := Step(Initial, WindowSize(80, 24)).0;
    var s2 := Step(s1, Modules([Sample("a")])).0;
    assert s2.viewport == Viewport(80, 22, 0, 0) && s2.cursor == 0;
  }
}

=== FILE: commands.dfy ===
/** The two background tasks, reduced to the message each delivers. The
    processes they run (`go list -m -u -json all` and `go get -u`) and the
    JSON stream decoding are outside the model: their outcomes are
    parameters. */
module Commands {
  import opened GoValues
  import opened Listing
  import opened Reducer

  /** The load task: a failure of the listing process or of decoding any
      record ends in an error message; otherwise the filtered, ordered list
      arrives. */
  function LoadDone(decoded: Result<seq<Module>>): (msg: Msg)
    ensures msg.Err? <==> decoded.Fails?
    ensures msg.Err? ==> msg.error == decoded.error
    ensures !msg.Err? ==> msg.Modules? && msg.list == Load(decoded.value)
    ensures ListableMsg(msg)
  {
    match decoded
    case Fails(e) => Err(e)
    case Ok(records) => Modules(Load(records))
  }

  /** The update task: a failed `go get` or a failed reload ends in an error
      message; otherwise the reloaded list arrives as `Updated`. The reload
      is not attempted after a failed `go get`. */
  function UpdateDone(get: RunResult, decoded: Result<seq<Module>>): (msg: Msg)
    ensures msg.Err? <==> get.RunFailed? || decoded.Fails?
    ensures get.RunFailed? ==> msg == Err(get.error)
    ensures get.Ran? && decoded.Fails? ==> msg == Err(decoded.error)
    ensures !msg.Err? ==> msg.Updated? && msg.list == Load(decoded.value)
    ensures ListableMsg(msg)
  {
    if get.RunFailed? then Err(get.error)
    else match decoded
      case Fails(e) => Err(e)
      case Ok(records) => Updated(Load(records))
  }

  /** The `path@version` argument of `go get`, read from the module's update. */
  function GetArgument(m: Module): (arg: string)
    requires m.update.Some?
    ensures |arg| == |m.update.value.path| + 1 + |m.update.value.version|
    ensures arg[..|m.update.value.path|] == m.update.value.path
    ensures arg[|m.update.value.path|] == '@'
    ensures arg[|m.update.value.path| + 1..] == m.update.value.version
  {
    m.update.value.path + "@" + m.update.value.version
  }

  /** The position of the last '@' in `s`, if any. */
  function LastAt(s: string): (r: Option<nat>)
    ensures r.Some? ==> r.value < |s| && s[r.value] == '@'
    ensures r.Some? ==> forall i :: r.value < i < |s| ==> s[i] != '@'
    ensures r.Nil? ==> forall i :: 0 <= i < |s| ==> s[i] != '@'
  {
    if |s| == 0 then Nil
    else if s[|s| - 1] == '@' then Some(|s| - 1)
    else LastAt(s[..|s| - 1])
  }

  /** Module versions contain no '@', so the target of `go get` can be read
      back from its argument: path and version round-trip. */
  lemma {:induction false} GetArgumentRoundTrip(m: Module)
    requires m.update.Some?
    requires forall i :: 0 <= i < |m.update.value.version| ==> m.update.value.version[i] != '@'
    ensures var arg := GetArgument(m);
      && LastAt(arg) == Some(|m.update.value.path|)
      && arg[..LastAt(arg).value] == m.update.value.path
      && arg[LastAt(arg).value + 1..] == m.update.value.version
  {
    var p := m.update.value.path;
    var arg := GetArgument(m);
    assert arg[|p|] == '@';
    assert forall i :: |p| < i < |arg| ==> arg[i] == m.update.value.version[i - |p| - 1];
  }

  /** Every command the reducer issues for an accepted "enter" in a state
      built from loaded listings has a defined `go get` argument. */
  lemma UpdateCommandHasArgument(s: State, k: string)
    requires CanStep(s, Key(k)) && AllListable(s.List())
    requires Step(s, Key(k)).1.UpdateModule?
    ensures Step(s, Key(k)).1.target.update.Some?
  {
    StepKeepsListable(s, Key(k));
  }
}

=== FILE: govalues.dfy ===
/** The two Go value shapes the program passes around: a pointer or slice
    that may be nil, and a result paired with an error. */
module GoValues {

  /** A value that may be nil: the `Update` pointer of a record, the list
      before the first listing, the stored error. */
  datatype Option<+T> = Nil | Some(value: T)

  /** A `(value, error)` return: the decoded listing, or the error that
      stopped the listing process or the decoder. */
  datatype Result<+T> = Ok(value: T) | Fails(error: string)

  /** The error `cmd.Run()` returns for the `go get` process: nil when it
      ran to a zero exit. */
  datatype RunResult = Ran | RunFailed(error: string)
}

=== FILE: lexicographic.dfy ===
/** Go's `<` on strings: lexicographic order on the encoded bytes. Comparing
    UTF-8 byte sequences agrees with comparing the code points they encode,
    so the order is stated here on `seq<char>` character by character. */
module Lexicographic {

  /** Strict lexicographic order: a proper prefix comes first, otherwise
      the first differing character decides. */
  predicate Less(a: string, b: string): (r: bool)
    ensures r ==> a != b
    ensures |a| < |b| && a == b[..|a|] ==> r
    ensures |a| > 0 && |b| > 0 && a[0] != b[0] ==> (r <==> a[0] < b[0])
    decreases |a|
  {
    if |a| == 0 then |b| > 0
    else if |b| == 0 then false
    else if a[0] != b[0] then a[0] < b[0]
    else Less(a[1..], b[1..])
  }

  /** The first differing character decides, wherever it lies. */
  lemma {:induction false} LessFirstDifference(a: string, b: string, k: nat)
    requires k < |a| && k < |b| && a[..k] == b[..k] && a[k] != b[k]
    ensures Less(a, b) <==> a[k] < b[k]
    decreases k
  {
    if k > 0 {
      assert a[0] == a[..k][0] == b[..k][0] == b[0];
      assert a[1..][..k - 1] == a[..k][1..];
      assert b[1..][..k - 1] == b[..k][1..];
      LessFirstDifference(a[1..], b[1..], k - 1);
    }
  }

  predicate LessOrEqual(a: string, b: string) {
    a == b || Less(a, b)
  }

  lemma {:induction false} LessIrreflexive(a: string)
    ensures !Less(a, a)
    decreases |a|
  {
    if |a| > 0 {
      LessIrreflexive(a[1..]);
    }
  }

  lemma {:induction false} LessAsymmetric(a: string, b: string)
    requires Less(a, b)
    ensures !Less(b, a)
    decreases |a|
  {
    if |a| > 0 && a[0] == b[0] {
      LessAsymmetric(a[1..], b[1..]);
    }
  }

  lemma {:induction false} LessTransitive(a: string, b: string, c: string)
    requires Less(a, b) && Less(b, c)
    ensures Less(a, c)
    decreases |a|
  {
    if |a| > 0 && a[0] == b[0] && b[0] == c[0] {
      LessTransitive(a[1..], b[1..], c[1..]);
    }
  }

  /** Any two different strings are ordered one way or the other. */
  lemma {:induction false} LessTotal(a: string, b: string)
    ensures a == b || Less(a, b) || Less(b, a)
    decreases |a|
  {
    if |a| > 0 && |b| > 0 && a[0] == b[0] {
      LessTotal(a[1..], b[1..]);
      if a[1..] == b[1..] {
        assert a == [a[0]] + a[1..] && b == [b[0]] + b[1..];
      }
    }
  }

  /** "Not after" is the same as "before or equal". */
  lemma NotLessMeans(a: string, b: string)
    ensures !Less(b, a) <==> LessOrEqual(a, b)
  {
    LessTotal(a, b);
    LessIrreflexive(a);
    if Less(a, b) {
      LessAsymmetric(a, b);
    }
  }
}

=== FILE: listing.dfy ===
/** The module records that the listing process reports, and the part of
    `load` that turns the decoded records into the displayed list: keep the
    modules that are not the main module and have an update, then order them
    direct-before-indirect and by path within each group. */
module Listing {
  import opened GoValues
  import Lexicographic

  /** The newer version the listing reports for a module (`Update` in the
      record; only its path and version are ever read). */
  datatype Release = Release(path: string, version: string)

  /** One decoded record of the listing stream. */
  datatype Module = Module(
    path: string,
    version: string,
    update: Option<Release>,
    main: bool,
    indirect: bool
  )

  /** A record is shown when it is not the main module and has an update. */
  predicate Listable(m: Module) {
    !m.main && m.update.Some?
  }

  /** The filtering loop of `load`: the listable records, in stream order. */
  function Updatable(records: seq<Module>): (r: seq<Module>)
    ensures forall m :: multiset(r)[m] == if Listable(m) then multiset(records)[m] else 0
    ensures forall m :: m in r ==> Listable(m)
  {
    if |records| == 0 then []
    else
      assert records == [records[0]] + records[1..];
      (if Listable(records[0]) then [records[0]] else []) + Updatable(records[1..])
  }

  /** The comparator handed to the sort: a direct module comes before an
      indirect one and never after it; inside a group the path decides. */
  predicate Before(a: Module, b: Module): (r: bool)
    ensures !a.indirect && b.indirect ==> r
    ensures a.indirect && !b.indirect ==> !r
    ensures a.indirect == b.indirect ==> (r <==> Lexicographic.Less(a.path, b.path))
  {
    if a.indirect && !b.indirect then false
    else if !a.indirect && b.indirect then true
    else Lexicographic.Less(a.path, b.path)
  }

  /** No element is strictly before an element to its left. */
  predicate Ordered(s: seq<Module>) {
    forall i, j :: 0 <= i < j < |s| ==> !Before(s[j], s[i])
  }

  /** The ordering rule in its own words: every direct module precedes every
      indirect one ... */
  predicate DirectFirst(s: seq<Module>) {
    forall i, j :: 0 <= i < j < |s| && s[i].indirect ==> s[j].indirect
  }

  /** ... and within each group paths never decrease. */
  predicate PathsAscending(s: seq<Module>) {
    forall i, j :: 0 <= i < j < |s| && s[i].indirect == s[j].indirect ==>
      Lexicographic.LessOrEqual(s[i].path, s[j].path)
  }

  lemma BeforeAsymmetric(a: Module, b: Module)
    requires Before(a, b)
    ensures !Before(b, a)
  {
    if a.indirect == b.indirect {
      Lexicographic.LessAsymmetric(a.path, b.path);
    }
  }

  /** `b` may follow `a` exactly when `a` is not indirect unless `b` is, and
      paths do not decrease inside a group. */
  lemma NotBeforeMeans(a: Module, b: Module)
    ensures !Before(b, a) <==>
      (a.indirect ==> b.indirect) &&
      (a.indirect == b.indirect ==> Lexicographic.LessOrEqual(a.path, b.path))
  {
    Lexicographic.NotLessMeans(a.path, b.path);
  }

  lemma NotBeforeTransitive(a: Module, b: Module, c: Module)
    requires !Before(b, a) && !Before(c, b)
    ensures !Before(c, a)
  {
    NotBeforeMeans(a, b);
    NotBeforeMeans(b, c);
    NotBeforeMeans(a, c);
    if a.indirect == c.indirect && a.path != b.path && b.path != c.path {
      Lexicographic.LessTransitive(a.path, b.path, c.path);
    }
  }

  /** The comparator's order is exactly the grouping-then-path rule. */
  lemma OrderedMeans(s: seq<Module>)
    ensures Ordered(s) <==> DirectFirst(s) && PathsAscending(s)
  {
    forall i, j | 0 <= i < j < |s| {
      NotBeforeMeans(s[i], s[j]);
    }
  }

  /** Insert `x` into an ordered list, keeping it ordered. */
  function Insert(x: Module, s: seq<Module>): (r: seq<Module>)
    requires Ordered(s)
    ensures Ordered(r)
    ensures multiset(r) == multiset(s) + multiset{x}
  {
    if |s| == 0 then [x]
    else if Before(s[0], x) then
      var t := Insert(x, s[1..]);
      assert s == [s[0]] + s[1..];
      FollowersOfHead(s, x, t);
      assert forall k :: 0 < k < |[s[0]] + t| ==> ([s[0]] + t)[k] == t[k - 1];
      [s[0]] + t
    else
      forall j | 0 <= j < |s|
        ensures !Before(s[j], x)
      {
        if j > 0 {
          NotBeforeTransitive(x, s[0], s[j]);
        }
      }
      [x] + s
  }

  /** After inserting a later element into the tail, every element of the
      new tail may still follow the head. */
  lemma FollowersOfHead(s: seq<Module>, x: Module, t: seq<Module>)
    requires Ordered(s) && |s| > 0 && Before(s[0], x)
    requires multiset(t) == multiset(s[1..]) + multiset{x}
    ensures forall k :: 0 <= k < |t| ==> !Before(t[k], s[0])
  {
    forall k | 0 <= k < |t|
      ensures !Before(t[k], s[0])
    {
      assert t[k] in multiset(t);
      if t[k] == x {
        BeforeAsymmetric(s[0], x);
      } else {
        assert t[k] in multiset(s[1..]);
        var j :| 0 <= j < |s[1..]| && s[1..][j] == t[k];
        assert s[j + 1] == t[k];
      }
    }
  }

  /** Insertion sort by the comparator. The source uses an unstable sort;
      only the order and the multiset of the result are promised, which is
      all that is stated here. */
  function SortModules(s: seq<Module>): (r: seq<Module>)
    ensures Ordered(r)
    ensures multiset(r) == multiset(s)
  {
    if |s| == 0 then []
    else
      assert s == [s[0]] + s[1..];
      Insert(s[0], SortModules(s[1..]))
  }

  /** The list `load` returns for a fully decoded stream. */
  function Load(records: seq<Module>): (r: seq<Module>)
    ensures Ordered(r)
    ensures forall m :: multiset(r)[m] == if Listable(m) then multiset(records)[m] else 0
    ensures forall m :: m in r ==> Listable(m)
  {
    var kept := Updatable(records);
    var sorted := SortModules(kept);
    assert forall m :: m in sorted ==> m in multiset(kept);
    sorted
  }

  /** The loaded list obeys the ordering rule stated without the comparator. */
  lemma LoadGroupsAndSorts(records: seq<Module>)
    ensures DirectFirst(Load(records))
    ensures PathsAscending(Load(records))
  {
    OrderedMeans(Load(records));
  }
}

=== FILE: navigation.dfy ===
/** Keeping the cursor on the list and in the viewport (`fixCursor` and
    `fixViewport`). */
module Navigation {
  import opened Scrolling

  function Distance(a: int, b: int): nat {
    if a <= b then b - a else a - b
  }

  /** Wrap a cursor that has stepped one past either end of a list of
      `count` modules: past the end goes to the first, before the start to
      the last. */
  function FixCursor(cursor: int, count: nat): (r: int)
    ensures count > 0 ==> 0 <= r < count
    ensures 0 <= cursor < count ==> r == cursor
    ensures cursor >= count ==> r == 0
    ensures cursor < 0 ==> r == count - 1
  {
    if cursor > count - 1 then 0
    else if cursor < 0 then count - 1
    else cursor
  }

  /** Fixing an already fixed cursor changes nothing. */
  lemma FixCursorIdempotent(cursor: int, count: nat)
    ensures FixCursor(FixCursor(cursor, count), count) == FixCursor(cursor, count)
  {
  }

  /** One step down or up from a valid position moves cyclically: the
      cursor is an element of the cyclic group of order `count`. */
  lemma FixCursorCycles(cursor: int, count: nat)
    requires 0 <= cursor < count
    ensures FixCursor(cursor + 1, count) == (cursor + 1) % count
    ensures FixCursor(cursor - 1, count) == (cursor - 1) % count
    ensures cursor == count - 1 ==> FixCursor(cursor + 1, count) == 0
    ensures cursor == 0 ==> FixCursor(cursor - 1, count) == count - 1
  {
    if cursor + 1 < count {
      assert (cursor + 1) % count == cursor + 1;
    }
    if cursor > 0 {
      assert (cursor - 1) % count == cursor - 1;
    }
  }

  /** Reconcile cursor and viewport. With `moveCursor` the window stays and
      the cursor is pulled to its nearest visible line: to the offset from
      above, else to `Bottom()`, which for a window of no lines lies above
      the offset. Without it the cursor stays and the window is asked to
      scroll by exactly the distance the cursor lies outside it. */
  function FixViewport(cursor: int, v: Viewport, moveCursor: bool): (r: (int, Viewport))
    ensures moveCursor ==> r.1 == v
    ensures moveCursor && v.Shows(cursor) ==> r.0 == cursor
    ensures moveCursor && cursor < v.yOffset ==> r.0 == v.yOffset
    ensures moveCursor && cursor >= v.yOffset && !v.Shows(cursor) ==> r.0 == v.Bottom()
    ensures moveCursor && v.height >= 1 ==> v.Shows(r.0)
    ensures moveCursor && v.height >= 1 ==>
      forall i :: v.Shows(i) ==> Distance(r.0, cursor) <= Distance(i, cursor)
    ensures !moveCursor ==> r.0 == cursor
    ensures !moveCursor && v.Shows(cursor) ==> r.1 == v
    ensures !moveCursor && cursor < v.yOffset ==> r.1 == LineUp(v, v.yOffset - cursor)
    ensures !moveCursor && cursor > v.Bottom() && cursor >= v.yOffset ==>
      r.1 == LineDown(v, cursor - v.Bottom())
  {
    var top := v.yOffset;
    var bottom := v.Bottom();
    if moveCursor then
      if cursor < top then (top, v)
      else if cursor > bottom then (bottom, v)
      else (cursor, v)
    else
      if cursor < top then (cursor, LineUp(v, top - cursor))
      else if cursor > bottom then (cursor, LineDown(v, cursor - bottom))
      else (cursor, v)
  }

  /** When the requested scroll is not cut short by the end of the content,
      following the cursor leaves it visible and moves the window as little
      as possible. */
  lemma FollowShowsCursor(cursor: int, v: Viewport)
    requires 0 <= cursor < v.lines
    requires v.height >= 1
    ensures FixViewport(cursor, v, false).1.Shows(cursor)
    ensures v.Shows(cursor) ==> FixViewport(cursor, v, false).1 == v
    ensures cursor < v.yOffset ==> FixViewport(cursor, v, false).1.yOffset == cursor
    ensures cursor > v.Bottom() ==> FixViewport(cursor, v, false).1.Bottom() == cursor
  {
  }
}

=== FILE: reducer.dfy ===
/** The message reducer of the terminal program (`Update` on the model),
    as a pure step from a state and a message to the next state and at most
    one follow-up command. This is the reducer as the source writes it; the
    `Checked` module holds a corrected variant. */
module Reducer {
  import opened GoValues
  import opened Listing
  import opened Scrolling
  import opened Navigation

  /** The program state the reducer reads and writes. `modules` is `Nil`
      until the first listing arrives (a nil slice in the source). */
  datatype State = State(
    ready: bool,
    modules: Option<seq<Module>>,
    cursor: int,
    updating: bool,
    err: Option<string>,
    viewport: Viewport
  )
  {
    /** The displayed list; a nil list behaves as an empty one. */
    function List(): seq<Module> {
      if modules.Some? then modules.value else []
    }

    predicate CursorInRange() {
      0 <= cursor < |List()|
    }

    predicate CursorVisible() {
      viewport.Shows(cursor)
    }
  }

  /** The state before any message: nothing loaded, no viewport yet. */
  const Initial := State(false, Nil, 0, false, Nil, Viewport(0, 0, 0, 0))

  /** Messages: a failed task, a first listing, the listing after an update,
      a key press, a spinner tick, a terminal resize. */
  datatype Msg =
    | Err(error: string)
    | Modules(list: seq<Module>)
    | Updated(list: seq<Module>)
    | Key(key: string)
    | Tick
    | WindowSize(width: int, height: int)

  /** Follow-up work handed back to the runtime. */
  datatype Cmd = Nothing | Quit | UpdateModule(target: Module) | SpinnerTick

  /** What a key press asks for. */
  datatype Action = Exit | Enter | Down | Up | PageUp | PageDown | Ignored

  /** The key bindings: each action has its key names, and every other
      key is ignored. */
  function ActionOf(key: string): (a: Action)
    ensures a == Exit <==> key in {"ctrl+c", "q"}
    ensures a == Enter <==> key == "enter"
    ensures a == Down <==> key in {"down", "j"}
    ensures a == Up <==> key in {"up", "k"}
    ensures a == PageUp <==> key in {"pgup", "u"}
    ensures a == PageDown <==> key in {"pgdown", "d"}
  {
    if key == "ctrl+c" || key == "q" then Exit
    else if key == "enter" then Enter
    else if key == "down" || key == "j" then Down
    else if key == "up" || key == "k" then Up
    else if key == "pgup" || key == "u" then PageUp
    else if key == "pgdown" || key == "d" then PageDown
    else Ignored
  }

  /** Keys that are refused while an update is running. */
  predicate Gated(a: Action) {
    a == Enter || a == Down || a == Up || a == PageUp || a == PageDown
  }

  /** The source indexes the list with the cursor when "enter" is accepted
      and has no guard: the index must be valid there. */
  predicate CanStep(s: State, msg: Msg) {
    msg.Key? && ActionOf(msg.key) == Enter && !s.updating ==> s.CursorInRange()
  }

  /** Move the cursor to `to`, wrap it, and scroll the window after it.
      Only cursor and offset change; the cursor lands on a non-empty list,
      and is visible when the content has a line per module. */
  function MoveCursor(s: State, to: int): (r: State)
    ensures r == s.(cursor := r.cursor, viewport := s.viewport.(yOffset := r.viewport.yOffset))
    ensures r.cursor == FixCursor(to, |s.List()|)
    ensures |s.List()| > 0 ==> r.CursorInRange()
    ensures |s.List()| > 0 && s.viewport.height >= 1 && |s.List()| <= s.viewport.lines ==>
      r.CursorVisible()
  {
    var wrapped := FixCursor(to, |s.List()|);
    var fixed := FixViewport(wrapped, s.viewport, false);
    if |s.List()| > 0 && s.viewport.height >= 1 && |s.List()| <= s.viewport.lines then
      FollowShowsCursor(wrapped, s.viewport);
      s.(cursor := fixed.0, viewport := fixed.1)
    else
      s.(cursor := fixed.0, viewport := fixed.1)
  }

  /** Adopt the scrolled window `v` and pull the cursor to its nearest
      visible line; a visible cursor stays. */
  function ScrollTo(s: State, v: Viewport): (r: State)
    ensures r == s.(cursor := r.cursor, viewport := v)
    ensures v.Shows(s.cursor) ==> r.cursor == s.cursor
    ensures v.height >= 1 ==> r.CursorVisible()
    ensures v.height >= 1 ==> forall i :: v.Shows(i) ==> Distance(r.cursor, s.cursor) <= Distance(i, s.cursor)
  {
    var fixed := FixViewport(s.cursor, v, true);
    s.(cursor := fixed.0, viewport := fixed.1)
  }

  /** A key press never changes the list or the error; while busy the
      gated keys do nothing; only an accepted "enter" sets the busy flag, and
      it names the module under the cursor. */
  function KeyStep(s: State, a: Action): (r: (State, Cmd))
    requires a == Enter && !s.updating ==> s.CursorInRange()
    ensures r.0.modules == s.modules && r.0.err == s.err && r.0.ready == s.ready
    ensures s.updating && Gated(a) ==> r == (s, Nothing)
    ensures r.1 == Quit <==> a == Exit
    ensures r.1.UpdateModule? <==> a == Enter && !s.updating
    ensures r.1.UpdateModule? ==> r.1.target == s.List()[s.cursor] && r.0.updating
    ensures !r.1.UpdateModule? ==> r.0.updating == s.updating
  {
    if a == Exit then (s, Quit)
    else if Gated(a) && s.updating then (s, Nothing)
    else match a
      case Enter => (s.(updating := true), UpdateModule(s.List()[s.cursor]))
      case Down => (MoveCursor(s, s.cursor + 1), Nothing)
      case Up => (MoveCursor(s, s.cursor - 1), Nothing)
      case PageUp => (ScrollTo(s, LineUp(s.viewport, 1)), Nothing)
      case PageDown => (ScrollTo(s, LineDown(s.viewport, 1)), Nothing)
      case _ => (s, Nothing)
  }

  /** The first resize creates the viewport; later ones resize it in place
      and pull the cursor into the new window. Two lines are kept for the
      header and the footer. */
  function Resize(s: State, width: int, height: int): (r: State)
    ensures r.ready
    ensures r.viewport.width == width && r.viewport.height == height - 2
    ensures r.viewport.yOffset == (if s.ready then s.viewport.yOffset else 0)
    ensures r == s.(ready := true, cursor := r.cursor, viewport := r.viewport)
    ensures !s.ready ==> r.cursor == s.cursor
    ensures s.ready && height - 2 >= 1 ==> r.CursorVisible()
  {
    if !s.ready then
      s.(viewport := Viewport(width, height - 2, 0, 0), ready := true)
    else
      ScrollTo(s, s.viewport.(width := width, height := height - 2))
  }

  /** The reducer. Only listings replace the list; only task errors and
      the quit keys quit; only an accepted "enter" starts an update, always
      of a listed module, and only the listing after an update ends one. */
  function Step(s: State, msg: Msg): (r: (State, Cmd))
    requires CanStep(s, msg)
    ensures !(msg.Modules? || msg.Updated?) ==> r.0.modules == s.modules
    ensures (msg.Modules? || msg.Updated?) ==> r.0.List() == msg.list
    ensures r.1 == Quit <==> msg.Err? || (msg.Key? && ActionOf(msg.key) == Exit)
    ensures r.0.err != s.err ==> msg.Err?
    ensures r.1.UpdateModule? ==> !s.updating && r.0.updating && r.1.target in s.List()
    ensures r.0.updating && !s.updating ==> r.1.UpdateModule?
    ensures !r.0.updating && s.updating ==> msg.Updated?
  {
    match msg
    case Err(e) => (s.(err := Some(e)), Quit)
    case Modules(list) => (s.(modules := Some(list)), Nothing)
    case Updated(list) => (s.(updating := false, modules := Some(list)), Nothing)
    case Key(k) => KeyStep(s, ActionOf(k))
    case Tick => (s, SpinnerTick)
    case WindowSize(w, h) => (Resize(s, w, h), Nothing)
  }

  /** While an update runs, the update, navigation and scrolling keys leave
      the state alone and ask for nothing. */
  lemma BusyGate(s: State, k: string)
    requires s.updating && Gated(ActionOf(k))
    ensures Step(s, Key(k)) == (s, Nothing)
  {
  }

  /** Keys outside the binding table are no-ops, busy or not. */
  lemma UnboundKeyIgnored(s: State, k: string)
    requires ActionOf(k) == Ignored
    ensures Step(s, Key(k)) == (s, Nothing)
  {
  }

  /** "enter" when idle marks the program busy and asks to update the module
      under the cursor; nothing else changes. */
  lemma EnterStartsUpdate(s: State)
    requires !s.updating && s.CursorInRange()
    ensures Step(s, Key("enter")).1 == UpdateModule(s.List()[s.cursor])
    ensures Step(s, Key("enter")).1.target in s.List()
    ensures Step(s, Key("enter")).0 == s.(updating := true)
  {
  }

  /** "q" and ctrl+c quit without touching the state, busy or not. */
  lemma QuitKeys(s: State, k: string)
    requires k == "q" || k == "ctrl+c"
    ensures Step(s, Key(k)) == (s, Quit)
  {
  }

  /** Task results: a failure records the error and quits, a listing
      replaces the list, the listing after an update also clears the busy
      flag. None of them moves the cursor or the viewport. */
  lemma ResultMessages(s: State, msg: Msg)
    requires msg.Err? || msg.Modules? || msg.Updated?
    ensures var t := Step(s, msg).0;
      t.cursor == s.cursor && t.viewport == s.viewport && t.ready == s.ready
    ensures msg.Err? ==> Step(s, msg) == (s.(err := Some(msg.error)), Quit)
    ensures msg.Modules? ==> Step(s, msg) == (s.(modules := Some(msg.list)), Nothing)
    ensures msg.Updated? ==>
      Step(s, msg) == (s.(modules := Some(msg.list), updating := false), Nothing)
  {
  }

  /** A spinner tick changes no state and asks for the next tick. */
  lemma TickOnlyAnimates(s: State)
    ensures Step(s, Tick) == (s, SpinnerTick)
  {
  }

  /** Down/"j" and up/"k" when idle move the cursor one step around the
      list, wrapping at both ends; only cursor and offset change. */
  lemma NavigationCycles(s: State, k: string)
    requires !s.updating && s.CursorInRange()
    requires ActionOf(k) == Down || ActionOf(k) == Up
    ensures Step(s, Key(k)).1 == Nothing
    ensures Step(s, Key(k)).0 ==
      s.(cursor := Step(s, Key(k)).0.cursor, viewport := s.viewport.(yOffset := Step(s, Key(k)).0.viewport.yOffset))
    ensures ActionOf(k) == Down ==> Step(s, Key(k)).0.cursor == (s.cursor + 1) % |s.List()|
    ensures ActionOf(k) == Up ==> Step(s, Key(k)).0.cursor == (s.cursor - 1) % |s.List()|
  {
    FixCursorCycles(s.cursor, |s.List()|);
  }

  /** After down/up the cursor is on the list and, when the content has a
      line per module and the window at least one line, visible. */
  lemma NavigationShowsCursor(s: State, k: string)
    requires !s.updating && s.CursorInRange()
    requires ActionOf(k) == Down || ActionOf(k) == Up
    requires s.viewport.height >= 1 && |s.List()| <= s.viewport.lines
    ensures Step(s, Key(k)).0.CursorInRange()
    ensures Step(s, Key(k)).0.CursorVisible()
  {
    var n := |s.List()|;
    var to := if ActionOf(k) == Down then s.cursor + 1 else s.cursor - 1;
    FollowShowsCursor(FixCursor(to, n), s.viewport);
  }

  /** pgup/"u" and pgdown/"d" when idle scroll one line (as far as the
      viewport allows) and pull the cursor to the nearest visible line. */
  lemma ScrollMovesCursor(s: State, k: string)
    requires !s.updating
    requires ActionOf(k) == PageUp || ActionOf(k) == PageDown
    ensures var t := Step(s, Key(k)).0;
      var v := if ActionOf(k) == PageUp then LineUp(s.viewport, 1) else LineDown(s.viewport, 1);
      && Step(s, Key(k)).1 == Nothing
      && t == s.(cursor := t.cursor, viewport := v)
      && (v.Shows(s.cursor) ==> t.cursor == s.cursor)
      && (v.height >= 1 ==> t.CursorVisible())
      && (v.height >= 1 ==> forall i :: v.Shows(i) ==> Distance(t.cursor, s.cursor) <= Distance(i, s.cursor))
  {
  }

  /** The first resize builds a viewport at offset 0 with room for header
      and footer and marks the program ready; the cursor stays. */
  lemma FirstResize(s: State, w: int, h: int)
    requires !s.ready
    ensures Step(s, WindowSize(w, h)) ==
      (s.(ready := true, viewport := Viewport(w, h - 2, 0, 0)), Nothing)
  {
  }

  /** Later resizes keep the offset, change the size and pull the cursor
      into the resized window. */
  lemma LaterResize(s: State, w: int, h: int)
    requires s.ready
    ensures var t := Step(s, WindowSize(w, h)).0;
      && t.viewport == s.viewport.(width := w, height := h - 2)
      && t == s.(cursor := t.cursor, viewport := t.viewport)
      && (t.viewport.Shows(s.cursor) ==> t.cursor == s.cursor)
      && (h - 2 >= 1 ==> t.CursorVisible())
  {
  }

  /** Every module the program lists has an update to show and apply. */
  predicate AllListable(list: seq<Module>) {
    forall m :: m in list ==> Listable(m)
  }

  /** Messages whose listings came out of `Load`. */
  predicate ListableMsg(msg: Msg) {
    (msg.Modules? || msg.Updated?) ==> AllListable(msg.list)
  }

  /** The reducer keeps every listed module listable, so the dereferences of
      a module's update (content line, `go get` argument) are safe, and an
      update command always names a listable module. */
  lemma StepKeepsListable(s: State, msg: Msg)
    requires CanStep(s, msg) && AllListable(s.List()) && ListableMsg(msg)
    ensures AllListable(Step(s, msg).0.List())
    ensures Step(s, msg).1.UpdateModule? ==> Listable(Step(s, msg).1.target)
  {
  }
}

=== FILE: scrolling.dfy ===
/** The list viewport. Its scrolling operations belong to an external widget
    library whose code is not part of this model; `LineUp` and `LineDown` are
    given the behaviour that library is assumed to have: move the offset by
    `n` lines, never above the first line and never so far that fewer than
    `height` lines remain, and do nothing when already at that end. */
module Scrolling {

  /** `lines` is the number of content lines last handed to the viewport by
      rendering; the reducer never changes it. */
  datatype Viewport = Viewport(width: int, height: int, yOffset: nat, lines: nat)
  {
    /** The largest offset scrolling down reaches. */
    function MaxOffset(): nat {
      if lines > height then lines - height else 0
    }

    /** Index of the last visible line (below `yOffset` when `height <= 0`). */
    function Bottom(): int {
      yOffset + height - 1
    }

    /** Whether line `i` lies in the visible window. */
    predicate Shows(i: int) {
      yOffset <= i <= Bottom()
    }
  }

  /** Scroll up `n` lines, stopping at the first line. */
  function LineUp(v: Viewport, n: nat): (r: Viewport)
    ensures r == v.(yOffset := r.yOffset)
    ensures n <= v.yOffset ==> r.yOffset == v.yOffset - n
    ensures n > v.yOffset ==> r.yOffset == 0
  {
    if v.yOffset == 0 || n == 0 then v
    else v.(yOffset := if v.yOffset > n then v.yOffset - n else 0)
  }

  /** Scroll down `n` lines, stopping at `MaxOffset`; an offset already at or
      past it is left alone. */
  function LineDown(v: Viewport, n: nat): (r: Viewport)
    ensures r == v.(yOffset := r.yOffset)
    ensures v.yOffset <= r.yOffset <= v.yOffset + n
    ensures v.yOffset + n <= v.MaxOffset() ==> r.yOffset == v.yOffset + n
    ensures v.yOffset < v.MaxOffset() < v.yOffset + n ==> r.yOffset == v.MaxOffset()
    ensures r.yOffset == v.yOffset || r.yOffset <= v.MaxOffset()
  {
    if v.yOffset >= v.MaxOffset() || n == 0 then v
    else v.(yOffset := if v.yOffset + n < v.MaxOffset() then v.yOffset + n else v.MaxOffset())
  }
}

=== FILE: view.dfy ===
/** What rendering shows: the header line chosen from the state, and one
    body line per listed module. Colours, the spinner glyph and the text
    layout are not modelled. */
module View {
  import opened GoValues
  import opened Listing
  import opened Reducer

  /** "Loading...", "All modules are up-to-date", or
      "Press enter to update [position/total]". */
  datatype Header = Loading | UpToDate | Prompt(position: int, total: nat)

  function HeaderOf(s: State): (h: Header)
    ensures h.Loading? <==> !s.ready || s.modules.Nil?
    ensures h.UpToDate? <==> s.ready && s.modules == Some([])
    ensures h.Prompt? <==> s.ready && |s.List()| > 0
    ensures h.Prompt? ==> h.total == |s.List()| && h.position == s.cursor + 1
  {
    if !s.ready || s.modules.Nil? then Loading
    else if |s.modules.value| == 0 then UpToDate
    else Prompt(s.cursor + 1, |s.modules.value|)
  }

  /** With the cursor on the list, the prompt's position is a real index. */
  lemma PromptPositionInBounds(s: State)
    requires s.CursorInRange() && s.ready
    ensures HeaderOf(s).Prompt?
    ensures 1 <= HeaderOf(s).position <= HeaderOf(s).total
  {
  }

  /** Rendering's write to the viewport: when the body is drawn, its text
      is handed to the viewport. The body holds one newline-terminated line
      per module, which the viewport library is assumed to split into one
      line more than there are modules. The library's offset adjustment is
      assumed only to keep an offset that still points into the content and
      otherwise to move to the last full window. */
  function Render(s: State): (r: State)
    ensures r == s.(viewport := s.viewport.(yOffset := r.viewport.yOffset, lines := r.viewport.lines))
    ensures HeaderOf(s).Prompt? ==> r.viewport.lines == |s.List()| + 1
    ensures !HeaderOf(s).Prompt? ==> r == s
    ensures s.viewport.yOffset <= |s.List()| ==> r.viewport.yOffset == s.viewport.yOffset
  {
    if HeaderOf(s).Prompt? then
      var v := s.viewport.(lines := |s.List()| + 1);
      s.(viewport := if v.yOffset > v.lines - 1 then v.(yOffset := v.MaxOffset()) else v)
    else s
  }

  /** The cursor column: blank, the pointer, or the spinner while the module
      under the cursor is being updated. */
  datatype Marker = Blank | Pointer | Busy

  /** One body line: marker, path, current and offered version, and whether
      the module is indirect. */
  datatype Line = Line(marker: Marker, path: string, version: string, latest: string, indirect: bool)

  function LineOf(s: State, i: nat, m: Module): Line
    requires m.update.Some?
  {
    var marker := if s.cursor != i then Blank else if s.updating then Busy else Pointer;
    Line(marker, m.path, m.version, m.update.value.version, m.indirect)
  }

  /** The body: one line per module in list order, the cursor's line marked.
      Reading the offered version dereferences the update, which is why
      every listed module must have one. */
  function Content(s: State): (lines: seq<Line>)
    requires forall m :: m in s.List() ==> m.update.Some?
    ensures |lines| == |s.List()|
    ensures forall i :: 0 <= i < |lines| ==>
      && lines[i].path == s.List()[i].path
      && lines[i].version == s.List()[i].version
      && lines[i].latest == s.List()[i].update.value.version
      && lines[i].indirect == s.List()[i].indirect
    ensures forall i :: 0 <= i < |lines| ==> (lines[i].marker != Blank <==> i == s.cursor)
    ensures forall i :: 0 <= i < |lines| ==> (lines[i].marker == Busy <==> i == s.cursor && s.updating)
  {
    var list := s.List();
    seq(|list|, i requires 0 <= i < |list| => LineOf(s, i, list[i]))
  }

  /** Exactly one line is marked when the cursor is on the list, none when
      it is off it. */
  lemma OneMarkedLine(s: State)
    requires forall m :: m in s.List() ==> m.update.Some?
    ensures var lines := Content(s);
      s.CursorInRange() <==> exists i :: 0 <= i < |lines| && lines[i].marker != Blank
  {
    var lines := Content(s);
    if s.CursorInRange() {
      assert lines[s.cursor].marker != Blank;
    }
  }
}
